=== FILE: README.md ===
# Session registry of a WhatsApp HTTP gateway, in Dafny

The gateway (`index.js`) keeps a process-wide object `sessions` that maps a
caller-supplied session id to a record `{client, ready, qr}`. HTTP requests
create a session, poll its status, send a message through it and log it out;
the session's `whatsapp-web.js` client reports `qr`, `ready`, `authenticated`
and `disconnected` events that change the record.

This project models that registry as an immutable `map<string, Session>` and
every request and event as a pure transition:

- `wrappers.dfy` — `Option`, standing for JavaScript's `null`/`undefined`.
- `recipient.dfy` — module `Recipient`: the recipient normalisation (append
  `@c.us` unless the number already contains it), with `String.prototype.includes`
  written as a left-to-right search and proved equal to a reference
  definition of substring containment.
- `registry.dfy` — module `Registry`: the session record, the JSON responses,
  the calls made on a client, and one function per handler: `Create`,
  `Status`, `Send`, `Logout`, and the event handlers `OnQr`, `OnReady`,
  `OnDisconnected` and their dispatcher `OnEvent`. `Status` only reads the
  registry and returns a response. `Create`, `Send` and `Logout` return the
  response, the new registry and the client calls they made, in order
  (`Initialize`, `SendTo`, `LogOut`, `Destroy`). How `sendMessage`,
  `logout()` and `destroy()` settle is an `Outcome` argument.
- `lifecycle.dfy` — module `Lifecycle`: replay of any sequence of one
  session's events, and how `ready` and the reported QR evolve under it; how
  create, logout and disconnect undo or redo one another.
- `server.dfy` — module `Server`: the whole process as a state machine over
  inputs (requests and events), a client counter standing for `new Client`,
  and the invariant it keeps: no two sessions share a client, and every
  stored QR value is a rendered QR URL. `Step` uses the corrected lookups of
  `Registry`; `StepAsWritten` uses the as-written lookups of `Inherited`, and
  both keep the invariant.
- `inherited.dfy` — module `Inherited`: the lookups as written, where
  `sessions[id]` also finds members inherited from `Object.prototype` (see
  Findings).

Request fields (`id`, `number`, `message`) are `Option<string>`: `None` is an
absent field. Create rejects `None` and `""` (JavaScript truthiness). Send and
logout look up `sessions[id]` directly, so an absent `id` is the key
`"undefined"` (`Registry.PropertyKey`). `encodeURIComponent` is the function
argument `enc`; only the fixed QR-service prefix and suffix around it are
modelled.

Events are keyed by session id, as in the source: each handler closes over
the id, not over the record. An event from a client whose session was removed
and then re-created under the same id therefore changes the new record.
A `qr` or `ready` event for an id that is no longer present would throw in the
source (`sessions[sessionId].qr` of `undefined`). The model states this as a
precondition (`Registry.Accepts`, `Server.Enabled`).

Behaviour of the code worth noting:

- A `qr` event after `ready` is not guarded: the session is then
  authenticated and still reports a QR URL (`Lifecycle.QrAfterReady`).
- When `destroy()` rejects after a successful `logout()`, the entry stays
  registered with a logged-out client and the answer is 500.
- Send on an unknown id answers 400 ("Session not ready or not found"), the
  same answer as for a session that is not ready.

## Model

| member | source | states |
|---|---|---|
| Recipient.IncludesIsContains | index.js:78 | `includes` as a left-to-right search holds exactly when the text occurs somewhere as a contiguous block |
| Recipient.Normalize | index.js:78 | the dispatched recipient always contains `@c.us`; it is the number itself when the number already contains `@c.us`, and the number followed by `@c.us` otherwise |
| Recipient.NormalizeIdempotent | index.js:78 | normalising an already normalised recipient changes nothing |
| Recipient.NormalizeExtends | index.js:78 | normalisation keeps the number as a prefix, adds nothing or exactly the five suffix characters, and leaves the number unchanged exactly when it contains the suffix |
| Recipient.NormalizeExamples | index.js:78 | "15551234567" becomes "15551234567@c.us"; "15551234567@c.us" passes through |
| Registry.Create | index.js:15-55 | an absent or empty id answers 400 and changes nothing; a present id answers "Session already exists", changes nothing and starts no client; a fresh id adds exactly that key with `ready` false and no QR, keeps every other entry, answers "Session created" with the id, and initialises exactly the new client |
| Registry.OnQr | index.js:32-35 | the session's QR becomes the QR-service URL around the encoded code; `ready`, the client, the key set and all other sessions are unchanged |
| Registry.OnReady | index.js:37-41 | the session becomes ready with no QR, keeps its client, and all other sessions are unchanged |
| Registry.OnDisconnected | index.js:47-50 | exactly that id is removed and every remaining entry is unchanged; removing an absent id changes nothing |
| Registry.OnEvent | index.js:32-50 | an event changes at most its own session; `authenticated` changes nothing; only `disconnected` changes the key set, by removing that id |
| Registry.Status | index.js:58-66 | 404 "Session not found" exactly for an absent id; otherwise 200 with "authenticated" exactly when ready, "pending" exactly when not, and the stored QR or null |
| Registry.Send | index.js:69-84 | the registry never changes; an absent or not-ready session answers 400 and dispatches nothing; a missing number answers 500 with the TypeError and dispatches nothing; otherwise exactly one message goes to the normalised recipient on that session's client, and the answer is 200 exactly when the send resolved, else 500 with the rejection's message |
| Registry.Logout | index.js:87-103 | an absent id answers 404 and calls nothing; `destroy()` is attempted only after `logout()` resolved; the id is removed, with every other entry kept, exactly when both resolved (200), and otherwise the answer is 500 and the registry is unchanged |
| Lifecycle.Replay | index.js:32-45 | a sequence of `qr`, `ready` and `authenticated` events keeps the key set, all other sessions and the session's client |
| Lifecycle.ReplayReady | index.js:37-41 | after any event sequence the session is ready exactly when it was ready before or some `ready` event arrived |
| Lifecycle.ReplayQr | index.js:32-41 | after any event sequence a QR is stored exactly when a `qr` event came after the last `ready`, or one was stored before and no `ready` came; a stored QR is a rendered URL or the earlier one |
| Lifecycle.FreshSessionStatus | index.js:30-65 | after create and any sequence of `qr`/`ready`/`authenticated` events, status says "authenticated" exactly when some `ready` arrived and reports a non-null QR exactly when a `qr` event arrived after the last `ready`; in particular the QR is null until the first `qr` |
| Lifecycle.QrAfterReady | index.js:32-41 | a `qr` event after `ready` leaves an authenticated session that reports the new QR URL |
| Lifecycle.CreateTwice | index.js:19-30 | of two creates in a row for one id the second changes nothing, answers "Session already exists" and initialises no client, so at most one client is started |
| Lifecycle.CreateThenDisconnect | index.js:30-50 | creating a fresh id and then disconnecting it restores the registry exactly |
| Lifecycle.CreateThenLogout | index.js:30-98 | creating a fresh id and then logging it out successfully restores the registry exactly |
| Lifecycle.LogoutThenCreate | index.js:19-98 | after a successful logout, status on that id answers 404, other ids answer as before, and a new create with that id takes the fresh-insert path with a new client |
| Lifecycle.PollingScenario | index.js:15-66 | for session "a": created; pending with null QR; pending with a QR after a scan code; authenticated with null QR after `ready` |
| Server.Step | index.js:15-103 | only requests produce a response; every client call goes to a registered session's client or initialises the newly constructed one; the counter advances exactly when a new client is initialised |
| Server.StepKeepsValid | index.js:23-50 | every request and event keeps each session's client distinct from every other session's and below the counter, and every stored QR a rendered URL |
| Server.StatusReportsStoredQr | index.js:64 | in any valid process, the fallback to null for an empty QR changes nothing: status reports exactly the QR the events stored, because a stored QR is a rendered URL and never empty |
| Server.StepAsWritten | index.js:15-103 | with the as-written lookups, only requests produce a response, every client call goes to a registered session's client or the newly constructed one, and the counter advances exactly when a client is initialised |
| Server.StepAsWrittenKeepsValid | index.js:15-103 | with the as-written lookups, every request and event also keeps clients distinct and below the counter and every stored QR a rendered URL |
| Server.Run | index.js:12-103 | a sequence of inputs handled one at a time by the corrected step keeps the process valid and never reuses client handles |
| Server.RunAsWritten | index.js:12-103 | a sequence of inputs handled one at a time by the program as written, with the inherited-member lookups, also keeps the process valid and never reuses client handles |
| Server.InitialValid | index.js:12 | the empty registry at start-up is valid |
| Server.UnknownId | index.js:58-93 | for an unknown id, status and logout answer 404 and send answers 400, each without changing the registry or calling a client |
| Inherited.CreateAsWritten | index.js:15-21 | as written, an id naming an inherited member answers "Session already exists" and changes nothing; on every other id it agrees with `Registry.Create` |
| Inherited.StatusAsWritten | index.js:58-65 | as written, an id naming an inherited member reports a pending session without a QR; on every other id it agrees with `Registry.Status` |
| Inherited.LogoutAsWritten | index.js:87-102 | as written, an id naming an inherited member answers 500 and calls no client; on every other id it agrees with `Registry.Logout` |
| Inherited.CreateAsWrittenAvoidsPrototypeNames | index.js:19-30 | as written, the registry never gains an own entry named after an inherited member |
| Inherited.PrototypeNameCounterexample | index.js:19 | on an empty registry, create of "constructor" creates nothing, status of "toString" answers 200 and logout of "valueOf" answers 500, where the intended handlers create the session and answer 404 |

## Left out

- Express, CORS, body parsing, `app.listen` and `PORT` (index.js:1-10, 106-108): framework I/O. Responses are the `Response` datatype.
- Construction of `Client` and `LocalAuth`, the Puppeteer arguments, and on-disk credential storage (index.js:23-28): a foreign library. A new client is a fresh handle, and create records one `Initialize` call (index.js:52). A rejected `initialize()` is not modelled.
- Registry.Create: the fresh-insert clause holds only for ids that `LocalAuth` accepts as a `clientId` (index.js:24). `LocalAuth` is not part of this model; it rejects any id with a character outside letters, digits, `_` and `-`, such as "my session" or "a@b", by throwing in its constructor. For such an id the handler throws before index.js:30, nothing is inserted and no client starts, and Express answers its default 500, where the model answers "Session created".
- `sendMessage`, `logout()` and `destroy()` (index.js:79, 96-97): only their resolution or rejection is modelled, as an argument. A rejection value without a `message` (details `undefined`) is not modelled.
- Console logging (index.js:33, 38, 44, 48, 107).
- Interleaving of asynchronous work: each request is handled to completion before the next input. Events arriving while send or logout await their client are not modelled.
- `encodeURIComponent`: an opaque function argument.
- Lone surrogates: JavaScript strings are UTF-16 code units, while the model's strings are sequences of Unicode scalar values, so ids or scan codes holding a lone surrogate (on which `encodeURIComponent` throws) are not represented. `includes` with the ASCII text "@c.us" answers the same on code units as on scalar values.
- Request fields that are present but not strings (numbers, objects, `null`) are not modelled: an id's string coercion, a numeric `number` whose `includes` is missing. Only absent or string fields are modelled.
- What follows a `qr` or `ready` event for a removed id is not modelled. The handler would throw; the model excludes the event by precondition.

## Findings

| source | as written | input that shows it | evidently intended | confidence | as-written member | corrected member |
|---|---|---|---|---|---|---|
| index.js:19 | `sessions` is a plain `{}`, so `sessions[id]` is truthy for names inherited from `Object.prototype` | on an empty registry, create `{id: "constructor"}` answers "Session already exists" and no session is ever created; `GET /status/toString` answers 200 pending instead of 404; logout `{id: "valueOf"}` answers 500 instead of 404 | look up own entries only: the id is created, and status and logout answer 404 | not executed; high (standard object-literal semantics) | Inherited.PrototypeNameCounterexample | Registry.Create |

=== FILE: inherited.dfy ===
/** index.js keeps its registry in a plain object literal, and `sessions[id]`
    also finds the properties every such object inherits from
    `Object.prototype`. For an id such as "constructor" or "toString" the
    lookup is therefore truthy although no session was ever created, so the
    handlers behave as if the session existed. This module models those
    lookups as written; the rest of the model uses the intended map lookup
    (`Registry`), with which these handlers agree on every other id. */
module Inherited {

  import opened Wrappers
  import opened Registry

  /** Properties a plain object inherits from `Object.prototype`. */
  const PrototypeNames: set<string> := {
    "constructor", "hasOwnProperty", "isPrototypeOf", "propertyIsEnumerable",
    "toLocaleString", "toString", "valueOf", "__proto__",
    "__defineGetter__", "__defineSetter__", "__lookupGetter__", "__lookupSetter__"
  }

  /** What `sessions[key]` evaluates to. */
  datatype Slot = Own(session: Session) | Member | Absent

  /** Property lookup on the registry object: own entries first, then the
      inherited members (all of them truthy functions or objects). */
  function Lookup(sessions: Sessions, key: string): (s: Slot)
    ensures s.Own? <==> key in sessions
    ensures s.Own? ==> s.session == sessions[key]
    ensures s.Member? <==> key !in sessions && key in PrototypeNames
  {
    if key in sessions then Own(sessions[key])
    else if key in PrototypeNames then Member
    else Absent
  }

  /** POST /create-session as written: an inherited member makes the id look
      taken, so no session is ever created for it. */
  function CreateAsWritten(sessions: Sessions, id: Option<string>, client: ClientId): (h: Handled)
    ensures !Truthy(id) ==> h == Create(sessions, id, client)
    ensures Truthy(id) && Lookup(sessions, id.value).Member? ==>
      h == Handled(Response(OK, Message(AlreadyExists)), sessions, [])
    ensures Truthy(id) && id.value !in PrototypeNames ==> h == Create(sessions, id, client)
  {
    if !Truthy(id) then
      Handled(Response(BadRequest, Error(IdRequired)), sessions, [])
    else if !Lookup(sessions, id.value).Absent? then
      Handled(Response(OK, Message(AlreadyExists)), sessions, [])
    else
      Create(sessions, id, client)
  }

  /** GET /status/:id as written: an inherited member has neither `ready` nor
      `qr`, so it reports a pending session without a QR. */
  function StatusAsWritten(sessions: Sessions, id: string): (r: Response)
    ensures Lookup(sessions, id).Member? ==> r == Response(OK, State(StatusPending, None))
    ensures id !in PrototypeNames ==> r == Status(sessions, id)
  {
    match Lookup(sessions, id)
    case Member => Response(OK, State(StatusPending, None))
    case _ => Status(sessions, id)
  }

  /** POST /logout as written: an inherited member has no `client`, so reading
      `client.logout` throws inside the `try` and the answer is 500. */
  function LogoutAsWritten(sessions: Sessions, id: Option<string>, loggedOut: Outcome, destroyed: Outcome): (h: Handled)
    ensures Lookup(sessions, PropertyKey(id)).Member? ==>
      h == Handled(Response(ServerError, Error(LogoutFailed)), sessions, [])
    ensures PropertyKey(id) !in PrototypeNames ==> h == Logout(sessions, id, loggedOut, destroyed)
  {
    match Lookup(sessions, PropertyKey(id))
    case Member => Handled(Response(ServerError, Error(LogoutFailed)), sessions, [])
    case _ => Logout(sessions, id, loggedOut, destroyed)
  }

  /** As written, the registry never holds an own entry named after an
      inherited member: create refuses every such id. */
  lemma CreateAsWrittenAvoidsPrototypeNames(sessions: Sessions, id: Option<string>, client: ClientId)
    requires sessions.Keys !! PrototypeNames
    ensures CreateAsWritten(sessions, id, client).sessions.Keys !! PrototypeNames
  {
  }

  /** The counterexample: on an empty registry, "constructor" is reported as
      already existing and is never created, status on "toString" answers a
      pending session instead of 404, and logout of "valueOf" answers 500
      instead of 404. The intended handlers create the session and answer 404. */
  lemma PrototypeNameCounterexample(client: ClientId)
    ensures CreateAsWritten(map[], Some("constructor"), client).response.body == Message(AlreadyExists)
    ensures "constructor" !in CreateAsWritten(map[], Some("constructor"), client).sessions
    ensures CreateAsWritten(map[], Some("constructor"), client).calls == []
    ensures Create(map[], Some("constructor"), client).sessions == map["constructor" := Session(client, false, None)]
    ensures StatusAsWritten(map[], "toString").code == OK
    ensures Status(map[], "toString").code == NotFound
    ensures LogoutAsWritten(map[], Some("valueOf"), Resolved, Resolved).response.code == ServerError
    ensures Logout(map[], Some("valueOf"), Resolved, Resolved).response.code == NotFound
  {
  }
}

=== FILE: lifecycle.dfy ===
/** Properties of sequences of transitions on one session id: how the `qr` and
    `ready` fields evolve under the client's events, and how create, logout and
    disconnect undo or redo one another. */
module Lifecycle {

  import opened Wrappers
  import opened Registry

  /** Events that keep the session in the registry. */
  predicate KeepsSession(events: seq<Event>) {
    forall i :: 0 <= i < |events| ==> !events[i].Disconnected?
  }

  /** The events of one session's client, delivered in order to the handlers. */
  function Replay(sessions: Sessions, id: string, events: seq<Event>, enc: string -> string): (r: Sessions)
    requires id in sessions
    requires KeepsSession(events)
    ensures r.Keys == sessions.Keys
    ensures r - {id} == sessions - {id}
    ensures r[id].client == sessions[id].client
    decreases |events|
  {
    if events == [] then sessions
    else
      var before := Replay(sessions, id, events[..|events| - 1], enc);
      OnEvent(before, id, events[|events| - 1], enc)
  }

  /** Some `ready` event occurs. */
  ghost predicate HasReady(events: seq<Event>) {
    exists i :: 0 <= i < |events| && events[i].Ready?
  }

  /** Some `qr` event occurs with no `ready` event after it. */
  ghost predicate QrPending(events: seq<Event>) {
    exists i :: 0 <= i < |events| && events[i].Qr? && NoReadyFrom(events, i + 1)
  }

  /** No `ready` event at index `from` or later. */
  ghost predicate NoReadyFrom(events: seq<Event>, from: int) {
    forall j :: from <= j < |events| && 0 <= j ==> !events[j].Ready?
  }

  /** One more event at the end of the sequence. */
  lemma HasReadySnoc(init: seq<Event>, last: Event)
    ensures HasReady(init + [last]) <==> HasReady(init) || last.Ready?
  {
    var events := init + [last];
    if HasReady(init) {
      var i :| 0 <= i < |init| && init[i].Ready?;
      assert events[i].Ready?;
    }
    if last.Ready? {
      assert events[|init|].Ready?;
    }
    if HasReady(events) {
      var i :| 0 <= i < |events| && events[i].Ready?;
      if i < |init| {
        assert init[i].Ready?;
      }
    }
  }

  lemma NoReadySnoc(init: seq<Event>, last: Event)
    ensures NoReadyFrom(init + [last], 0) <==> NoReadyFrom(init, 0) && !last.Ready?
  {
    var events := init + [last];
    if NoReadyFrom(events, 0) {
      assert !events[|init|].Ready?;
      forall j | 0 <= j < |init| ensures !init[j].Ready? {
        assert events[j] == init[j];
      }
    }
  }

  lemma QrPendingSnoc(init: seq<Event>, last: Event)
    ensures last.Ready? ==> !QrPending(init + [last])
    ensures last.Qr? ==> QrPending(init + [last])
    ensures !last.Ready? && !last.Qr? ==> (QrPending(init + [last]) <==> QrPending(init))
  {
    var events := init + [last];
    var n := |init|;
    if last.Ready? {
      forall i | 0 <= i < |events| && events[i].Qr? ensures !NoReadyFrom(events, i + 1) {
        assert events[n].Ready?;
      }
    }
    if last.Qr? {
      assert events[n].Qr? && NoReadyFrom(events, n + 1);
    }
    if !last.Ready? && !last.Qr? {
      if QrPending(init) {
        var i :| 0 <= i < |init| && init[i].Qr? && NoReadyFrom(init, i + 1);
        assert events[i].Qr?;
        assert NoReadyFrom(events, i + 1);
      }
      if QrPending(events) {
        var i :| 0 <= i < |events| && events[i].Qr? && NoReadyFrom(events, i + 1);
        assert i < n;
        assert init[i].Qr?;
        forall j | i + 1 <= j < |init| ensures !init[j].Ready? {
          assert init[j] == events[j];
        }
      }
    }
  }

  /** Replaying a non-empty sequence is replaying all but the last event, then
      handling the last one. */
  lemma ReplaySnoc(sessions: Sessions, id: string, events: seq<Event>, enc: string -> string)
    requires id in sessions
    requires KeepsSession(events)
    requires events != []
    ensures var init := events[..|events| - 1];
            && events == init + [events[|events| - 1]]
            && KeepsSession(init)
            && Replay(sessions, id, events, enc) == OnEvent(Replay(sessions, id, init, enc), id, events[|events| - 1], enc)
  {
  }

  /** After any event sequence the session is ready exactly when it was ready
      before or some `ready` event arrived. */
  lemma {:induction false} ReplayReady(sessions: Sessions, id: string, events: seq<Event>, enc: string -> string)
    requires id in sessions
    requires KeepsSession(events)
    ensures Replay(sessions, id, events, enc)[id].ready <==> sessions[id].ready || HasReady(events)
    decreases |events|
  {
    if events != [] {
      ReplaySnoc(sessions, id, events, enc);
      var init := events[..|events| - 1];
      ReplayReady(sessions, id, init, enc);
      HasReadySnoc(init, events[|events| - 1]);
    }
  }

  /** After any event sequence a QR URL is stored exactly when a `qr` event
      came after the last `ready`, or one was stored before and no `ready`
      arrived; a stored URL is either new and well formed or the old one. */
  lemma {:induction false} ReplayQr(sessions: Sessions, id: string, events: seq<Event>, enc: string -> string)
    requires id in sessions
    requires KeepsSession(events)
    ensures Replay(sessions, id, events, enc)[id].qr.Some? <==>
      QrPending(events) || (sessions[id].qr.Some? && NoReadyFrom(events, 0))
    ensures var qr := Replay(sessions, id, events, enc)[id].qr;
            qr.Some? ==> IsQrUrl(qr.value) || qr == sessions[id].qr
    decreases |events|
  {
    if events != [] {
      ReplaySnoc(sessions, id, events, enc);
      var init := events[..|events| - 1];
      var last := events[|events| - 1];
      ReplayQr(sessions, id, init, enc);
      NoReadySnoc(init, last);
      QrPendingSnoc(init, last);
    }
  }

  /** A freshly created session, followed by any sequence of `qr`, `ready` and
      `authenticated` events: status reports "authenticated" exactly when a
      `ready` arrived, and a non-null QR exactly when a `qr` event arrived after
      the last `ready`. The QR is null from creation until the first `qr`. */
  lemma FreshSessionStatus(sessions: Sessions, id: string, client: ClientId, events: seq<Event>,
                           enc: string -> string)
    requires id != "" && id !in sessions
    requires KeepsSession(events)
    ensures var created := Create(sessions, Some(id), client).sessions;
            var r := Status(Replay(created, id, events, enc), id);
            && r.code == OK
            && (r.body.status == StatusAuthenticated <==> HasReady(events))
            && (r.body.qr.Some? <==> QrPending(events))
  {
    var created := Create(sessions, Some(id), client).sessions;
    ReplayReady(created, id, events, enc);
    ReplayQr(created, id, events, enc);
    var after := Replay(created, id, events, enc);
    if after[id].qr.Some? {
      assert IsQrUrl(after[id].qr.value);
      assert after[id].qr.value != "";
    }
  }

  /** The `qr` handler does not look at `ready`: a `qr` event after `ready`
      gives an authenticated session that still reports a QR URL. */
  lemma QrAfterReady(sessions: Sessions, id: string, code: string, enc: string -> string)
    requires id in sessions
    ensures var r := Status(OnQr(OnReady(sessions, id), id, code, enc), id);
            r.body.status == StatusAuthenticated && r.body.qr == Some(QrUrl(enc(code)))
  {
  }

  /** A second create for a present id changes nothing and starts no client:
      of two creates in a row, at most one initialises a client. */
  lemma CreateTwice(sessions: Sessions, id: string, first: ClientId, second: ClientId)
    requires id != ""
    ensures var h1 := Create(sessions, Some(id), first);
            var h2 := Create(h1.sessions, Some(id), second);
            && h2.sessions == h1.sessions
            && h2.calls == []
            && h2.response.body == Message(AlreadyExists)
            && |h1.calls| + |h2.calls| <= 1
  {
  }

  /** Create on a fresh id followed by a disconnect restores the registry. */
  lemma CreateThenDisconnect(sessions: Sessions, id: string, client: ClientId)
    requires id != "" && id !in sessions
    ensures OnDisconnected(Create(sessions, Some(id), client).sessions, id) == sessions
  {
  }

  /** A successful logout removes exactly the id: status on it is then
      NotFound, other ids keep their status, and a new create with the same id
      takes the fresh-insert path. */
  lemma LogoutThenCreate(sessions: Sessions, id: string, client: ClientId, other: string)
    requires id != "" && id in sessions && other != id
    ensures var gone := Logout(sessions, Some(id), Resolved, Resolved).sessions;
            && Status(gone, id).code == NotFound
            && Status(gone, other) == Status(sessions, other)
            && Create(gone, Some(id), client).response == Response(OK, Created(SessionCreated, id))
            && Create(gone, Some(id), client).sessions[id] == Session(client, false, None)
            && Create(gone, Some(id), client).calls == [Initialize(client)]
  {
  }

  /** Logout of a freshly created session restores the registry. */
  lemma CreateThenLogout(sessions: Sessions, id: string, client: ClientId)
    requires id != "" && id !in sessions
    ensures Logout(Create(sessions, Some(id), client).sessions, Some(id), Resolved, Resolved).sessions == sessions
  {
  }

  /** The polling sequence a caller sees for session "a": pending without a QR,
      pending with a QR after a scan code, authenticated without a QR after
      `ready`. */
  lemma PollingScenario(client: ClientId, code: string, enc: string -> string)
    ensures var created := Create(map[], Some("a"), client);
            var scanned := OnQr(created.sessions, "a", code, enc);
            var ready := OnReady(scanned, "a");
            && created.response.body == Created(SessionCreated, "a")
            && Status(created.sessions, "a") == Response(OK, State(StatusPending, None))
            && Status(scanned, "a").body.status == StatusPending
            && Status(scanned, "a").body.qr.Some?
            && Status(ready, "a") == Response(OK, State(StatusAuthenticated, None))
  {
  }
}

=== FILE: recipient.dfy ===
/** The recipient-address normalisation applied before a message is handed to
    the messaging client (index.js:78). */
module Recipient {

  /** The address suffix of an individual chat on the messaging network. */
  const UserSuffix: string := "@c.us"

  /** Reference definition: `t` occurs in `s` as a contiguous block. */
  ghost predicate Contains(s: string, t: string) {
    exists i :: 0 <= i <= |s| - |t| && s[i..][..|t|] == t
  }

  /** `String.prototype.includes`: tries every start position from the left. */
  function Includes(s: string, t: string): bool
    decreases |s|
  {
    if |s| < |t| then false
    else if s[..|t|] == t then true
    else Includes(s[1..], t)
  }

  /** The executable search agrees with the reference definition. */
  lemma {:induction false} IncludesIsContains(s: string, t: string)
    ensures Includes(s, t) <==> Contains(s, t)
    decreases |s|
  {
    if |s| < |t| {
    } else if s[..|t|] == t {
      assert s[0..][..|t|] == t;
    } else {
      IncludesIsContains(s[1..], t);
      if Contains(s, t) {
        var i :| 0 <= i <= |s| - |t| && s[i..][..|t|] == t;
        assert i != 0;
        assert s[1..][i - 1..] == s[i..];
      }
      if Contains(s[1..], t) {
        var i :| 0 <= i <= |s[1..]| - |t| && s[1..][i..][..|t|] == t;
        assert s[1..][i..] == s[i + 1..];
      }
    }
  }

  /** Any string followed by `t` contains `t`. */
  lemma AppendedContains(s: string, t: string)
    ensures Contains(s + t, t)
  {
    assert (s + t)[|s|..][..|t|] == t;
  }

  /** The recipient actually dispatched for the request field `number`. */
  function Normalize(number: string): (r: string)
    ensures Contains(r, UserSuffix)
    ensures Contains(number, UserSuffix) ==> r == number
    ensures !Contains(number, UserSuffix) ==> r == number + UserSuffix
  {
    IncludesIsContains(number, UserSuffix);
    AppendedContains(number, UserSuffix);
    if Includes(number, UserSuffix) then number else number + UserSuffix
  }

  /** Normalising twice is normalising once. */
  lemma NormalizeIdempotent(number: string)
    ensures Normalize(Normalize(number)) == Normalize(number)
  {
  }

  /** Normalisation only ever appends the suffix: the caller's text is kept as a
      prefix, and the result is unchanged exactly when the suffix is present. */
  lemma NormalizeExtends(number: string)
    ensures |Normalize(number)| == |number| || |Normalize(number)| == |number| + |UserSuffix|
    ensures Normalize(number)[..|number|] == number
    ensures Normalize(number) == number <==> Contains(number, UserSuffix)
  {
  }

  /** A string that never mentions the first character of `t` cannot contain `t`. */
  lemma MissingFirstChar(s: string, t: string)
    requires |t| > 0
    requires forall k :: 0 <= k < |s| ==> s[k] != t[0]
    ensures !Contains(s, t)
  {
    forall i | 0 <= i <= |s| - |t|
      ensures s[i..][..|t|] != t
    {
      assert s[i..][..|t|][0] == s[i];
    }
  }

  /** A bare phone number gains the suffix; an address that already carries
      it passes through. */
  lemma NormalizeExamples()
    ensures Normalize("15551234567") == "15551234567@c.us"
    ensures Normalize("15551234567@c.us") == "15551234567@c.us"
  {
    MissingFirstChar("15551234567", UserSuffix);
    assert "15551234567@c.us" == "15551234567" + UserSuffix;
  }
}

=== FILE: registry.dfy ===
/** The process-wide session registry of index.js and the handlers that read or
    change it: the four HTTP requests and the four client lifecycle events.

    Each request handler is a pure function from the registry before the request
    to a `Handled` value: the response, the registry after the request, and the
    calls made on the messaging client, in order. What the client does with a
    call (a sent message, a logout, a teardown) is an `Outcome` passed in. */
module Registry {

  import opened Wrappers
  import Recipient

  /** Handle of one messaging-client instance. */
  type ClientId = nat

  /** The record kept per session id (index.js:30): the client that owns the
      session, whether the client reported `ready`, and the rendered QR URL. */
  datatype Session = Session(client: ClientId, ready: bool, qr: Option<string>)

  /** The `sessions` object, keyed by the caller-supplied id. */
  type Sessions = map<string, Session>

  /** JSON bodies the handlers send back. */
  datatype Body =
    | Error(error: string)
    | Failure(error: string, details: string)
    | Message(message: string)
    | Created(message: string, id: string)
    | State(status: string, qr: Option<string>)

  datatype Response = Response(code: nat, body: Body)

  /** A call made on a session's messaging client. */
  datatype Call =
    | Initialize(client: ClientId)
    | SendTo(client: ClientId, to: string, text: Option<string>)
    | LogOut(client: ClientId)
    | Destroy(client: ClientId)

  /** How one asynchronous client call settles. */
  datatype Outcome = Resolved | Rejected(reason: string)

  /** What a request handler produces. */
  datatype Handled = Handled(response: Response, sessions: Sessions, calls: seq<Call>)

  /** A lifecycle event emitted by a session's client. */
  datatype Event = Qr(code: string) | Ready | Authenticated | Disconnected

  const OK: nat := 200
  const BadRequest: nat := 400
  const NotFound: nat := 404
  const ServerError: nat := 500

  const IdRequired: string := "Session ID required"
  const AlreadyExists: string := "Session already exists"
  const SessionCreated: string := "Session created"
  const SessionNotFound: string := "Session not found"
  const NotReadyOrNotFound: string := "Session not ready or not found"
  const MessageSent: string := "Message sent successfully"
  const SendFailed: string := "Failed to send message"
  const LoggedOut: string := "Logged out and session destroyed"
  const LogoutFailed: string := "Failed to logout session"
  const StatusAuthenticated: string := "authenticated"
  const StatusPending: string := "pending"

  /** The TypeError V8 raises for `number.includes` when `number` is absent. */
  const MissingNumber: string := "Cannot read properties of undefined (reading 'includes')"

  /** The QR image service URL around the encoded scan code (index.js:34). */
  const QrPrefix: string := "https://api.qrserver.com/v1/create-qr-code/?data="
  const QrSuffix: string := "&size=300x300"

  function QrUrl(data: string): string {
    QrPrefix + data + QrSuffix
  }

  /** A value that has the shape of a rendered QR URL. */
  predicate IsQrUrl(u: string) {
    && |u| >= |QrPrefix| + |QrSuffix|
    && u[..|QrPrefix|] == QrPrefix
    && u[|u| - |QrSuffix|..] == QrSuffix
  }

  /** JavaScript truthiness of an optional string field. */
  predicate Truthy(field: Option<string>) {
    field.Some? && field.value != ""
  }

  /** The property key JavaScript uses for `sessions[field]`: an absent field
      (`undefined`) is converted to the string "undefined". */
  function PropertyKey(field: Option<string>): string {
    match field
    case Some(s) => s
    case None => "undefined"
  }

  /** `session && session.ready`: the session exists and its client is ready. */
  predicate IsReady(sessions: Sessions, key: string) {
    key in sessions && sessions[key].ready
  }

  /** `qr || null`: an empty string reads as null. */
  function QrOrNull(qr: Option<string>): (r: Option<string>)
    ensures r.Some? <==> qr.Some? && qr.value != ""
    ensures r.Some? ==> r == qr
  {
    if qr.Some? && qr.value != "" then qr else None
  }

  /** POST /create-session (index.js:15-55). */
  function Create(sessions: Sessions, id: Option<string>, client: ClientId): (h: Handled)
    ensures !Truthy(id) ==>
      h == Handled(Response(BadRequest, Error(IdRequired)), sessions, [])
    ensures Truthy(id) && id.value in sessions ==>
      h == Handled(Response(OK, Message(AlreadyExists)), sessions, [])
    ensures Truthy(id) && id.value !in sessions ==>
      && h.response == Response(OK, Created(SessionCreated, id.value))
      && h.sessions.Keys == sessions.Keys + {id.value}
      && h.sessions[id.value] == Session(client, false, None)
      && h.sessions - {id.value} == sessions
      && h.calls == [Initialize(client)]
  {
    if !Truthy(id) then
      Handled(Response(BadRequest, Error(IdRequired)), sessions, [])
    else if id.value in sessions then
      Handled(Response(OK, Message(AlreadyExists)), sessions, [])
    else
      var added := sessions[id.value := Session(client, false, None)];
      assert added - {id.value} == sessions;
      Handled(Response(OK, Created(SessionCreated, id.value)), added, [Initialize(client)])
  }

  /** The `qr` handler (index.js:32-35). It indexes the entry unguarded, so it
      needs the id to be present. */
  function OnQr(sessions: Sessions, id: string, code: string, enc: string -> string): (r: Sessions)
    requires id in sessions
    ensures r.Keys == sessions.Keys
    ensures r - {id} == sessions - {id}
    ensures r[id].qr == Some(QrUrl(enc(code))) && IsQrUrl(r[id].qr.value)
    ensures r[id].ready == sessions[id].ready && r[id].client == sessions[id].client
  {
    var url := QrUrl(enc(code));
    assert url[..|QrPrefix|] == QrPrefix;
    assert url[|url| - |QrSuffix|..] == QrSuffix;
    sessions[id := sessions[id].(qr := Some(url))]
  }

  /** The `ready` handler (index.js:37-41). */
  function OnReady(sessions: Sessions, id: string): (r: Sessions)
    requires id in sessions
    ensures r.Keys == sessions.Keys
    ensures r - {id} == sessions - {id}
    ensures r[id].ready && r[id].qr.None? && r[id].client == sessions[id].client
  {
    sessions[id := sessions[id].(ready := true, qr := None)]
  }

  /** The `disconnected` handler (index.js:47-50): `delete` of a missing key is
      allowed and changes nothing. */
  function OnDisconnected(sessions: Sessions, id: string): (r: Sessions)
    ensures id !in r
    ensures r.Keys == sessions.Keys - {id}
    ensures forall k :: k in r ==> r[k] == sessions[k]
  {
    sessions - {id}
  }

  /** The events a handler can take for this registry: `qr` and `ready` on a
      missing id would throw. */
  predicate Accepts(sessions: Sessions, id: string, event: Event) {
    (event.Qr? || event.Ready?) ==> id in sessions
  }

  /** Dispatch of one client event to its handler (index.js:32-50); the
      `authenticated` handler only logs. */
  function OnEvent(sessions: Sessions, id: string, event: Event, enc: string -> string): (r: Sessions)
    requires Accepts(sessions, id, event)
    ensures r - {id} == sessions - {id}
    ensures event.Authenticated? ==> r == sessions
    ensures event.Disconnected? ==> r.Keys == sessions.Keys - {id}
    ensures !event.Disconnected? ==> r.Keys == sessions.Keys
  {
    match event
    case Qr(code) => OnQr(sessions, id, code, enc)
    case Ready => OnReady(sessions, id)
    case Authenticated => sessions
    case Disconnected => OnDisconnected(sessions, id)
  }

  /** GET /status/:id (index.js:58-66). */
  function Status(sessions: Sessions, id: string): (r: Response)
    ensures r.code == NotFound <==> id !in sessions
    ensures id !in sessions ==> r.body == Error(SessionNotFound)
    ensures id in sessions ==>
      && r.code == OK
      && r.body.State?
      && (r.body.status == StatusAuthenticated <==> sessions[id].ready)
      && (r.body.status == StatusPending <==> !sessions[id].ready)
      && r.body.qr == QrOrNull(sessions[id].qr)
  {
    if id !in sessions then
      Response(NotFound, Error(SessionNotFound))
    else
      var s := sessions[id];
      Response(OK, State(if s.ready then StatusAuthenticated else StatusPending, QrOrNull(s.qr)))
  }

  /** POST /send-message (index.js:69-84). `number` and `text` are the request
      fields, `sent` is how the client's `sendMessage` settles. */
  function Send(sessions: Sessions, id: Option<string>, number: Option<string>, text: Option<string>,
                sent: Outcome): (h: Handled)
    ensures h.sessions == sessions
    ensures !IsReady(sessions, PropertyKey(id)) ==>
      h.response == Response(BadRequest, Error(NotReadyOrNotFound)) && h.calls == []
    ensures IsReady(sessions, PropertyKey(id)) && number.None? ==>
      h.response == Response(ServerError, Failure(SendFailed, MissingNumber)) && h.calls == []
    ensures IsReady(sessions, PropertyKey(id)) && number.Some? ==>
      && h.calls == [SendTo(sessions[PropertyKey(id)].client, Recipient.Normalize(number.value), text)]
      && (h.response.code == OK <==> sent.Resolved?)
      && (sent.Resolved? ==> h.response.body == Message(MessageSent))
      && (sent.Rejected? ==> h.response == Response(ServerError, Failure(SendFailed, sent.reason)))
  {
    var key := PropertyKey(id);
    if !IsReady(sessions, key) then
      Handled(Response(BadRequest, Error(NotReadyOrNotFound)), sessions, [])
    else if number.None? then
      Handled(Response(ServerError, Failure(SendFailed, MissingNumber)), sessions, [])
    else
      var call := SendTo(sessions[key].client, Recipient.Normalize(number.value), text);
      match sent
      case Resolved => Handled(Response(OK, Message(MessageSent)), sessions, [call])
      case Rejected(reason) => Handled(Response(ServerError, Failure(SendFailed, reason)), sessions, [call])
  }

  /** POST /logout (index.js:87-103): `logout()` then `destroy()`, and the entry
      is deleted only once both have resolved. */
  function Logout(sessions: Sessions, id: Option<string>, loggedOut: Outcome, destroyed: Outcome): (h: Handled)
    ensures PropertyKey(id) !in sessions ==>
      h == Handled(Response(NotFound, Error(SessionNotFound)), sessions, [])
    ensures PropertyKey(id) in sessions ==>
      var c := sessions[PropertyKey(id)].client;
      && (loggedOut.Rejected? ==> h.calls == [LogOut(c)])
      && (loggedOut.Resolved? ==> h.calls == [LogOut(c), Destroy(c)])
    ensures PropertyKey(id) in sessions ==>
      if loggedOut.Resolved? && destroyed.Resolved? then
        && h.response == Response(OK, Message(LoggedOut))
        && h.sessions == sessions - {PropertyKey(id)}
      else
        h.response == Response(ServerError, Error(LogoutFailed)) && h.sessions == sessions
  {
    var key := PropertyKey(id);
    if key !in sessions then
      Handled(Response(NotFound, Error(SessionNotFound)), sessions, [])
    else
      var c := sessions[key].client;
      match loggedOut
      case Rejected(_) => Handled(Response(ServerError, Error(LogoutFailed)), sessions, [LogOut(c)])
      case Resolved =>
        match destroyed
        case Rejected(_) => Handled(Response(ServerError, Error(LogoutFailed)), sessions, [LogOut(c), Destroy(c)])
        case Resolved => Handled(Response(OK, Message(LoggedOut)), sessions - {key}, [LogOut(c), Destroy(c)])
  }
}

=== FILE: server.dfy ===
/** The whole process as one sequential state machine: every HTTP request and
    every client event is one step over the registry. Each create that takes
    the fresh-insert path constructs a new client, numbered from a counter. */
module Server {

  import opened Wrappers
  import opened Registry
  import Inherited

  /** One request or one client event, with the outcomes of the client calls it
      makes. */
  datatype Input =
    | CreateSession(id: Option<string>)
    | GetStatus(path: string)
    | SendMessage(id: Option<string>, number: Option<string>, text: Option<string>, sent: Outcome)
    | LogoutSession(id: Option<string>, loggedOut: Outcome, destroyed: Outcome)
    | ClientEvent(session: string, event: Event)

  /** The registry and the handle the next constructed client receives. */
  datatype Process = Process(sessions: Sessions, nextClient: ClientId)

  /** A step's result: the new process state, the HTTP response (none for a
      client event) and the client calls made. */
  datatype Transition = Transition(process: Process, response: Option<Response>, calls: seq<Call>)

  /** The input can be handled without an exception escaping a handler. */
  predicate Enabled(p: Process, input: Input) {
    input.ClientEvent? ==> Accepts(p.sessions, input.session, input.event)
  }

  /** The clients owned by registered sessions. */
  function ClientsOf(sessions: Sessions): set<ClientId> {
    set k | k in sessions :: sessions[k].client
  }

  /** What the process keeps true: client handles come from the counter, no
      two sessions share a client, and a stored QR value is a rendered URL. */
  ghost predicate Valid(p: Process) {
    && (forall k :: k in p.sessions ==> p.sessions[k].client < p.nextClient)
    && (forall a, b :: a in p.sessions && b in p.sessions && a != b ==>
          p.sessions[a].client != p.sessions[b].client)
    && (forall k :: k in p.sessions && p.sessions[k].qr.Some? ==> IsQrUrl(p.sessions[k].qr.value))
  }

  /** Handles one input (index.js:15-103). */
  function Step(p: Process, input: Input, enc: string -> string): (t: Transition)
    requires Enabled(p, input)
    ensures t.response.None? <==> input.ClientEvent?
    ensures t.process.nextClient == p.nextClient || t.process.nextClient == p.nextClient + 1
    ensures forall c :: c in t.calls ==> c.client in ClientsOf(p.sessions) || c == Initialize(p.nextClient)
    ensures t.process.nextClient == p.nextClient + 1 <==> Initialize(p.nextClient) in t.calls
  {
    match input
    case CreateSession(id) =>
      var h := Create(p.sessions, id, p.nextClient);
      var next := if h.calls == [] then p.nextClient else p.nextClient + 1;
      Transition(Process(h.sessions, next), Some(h.response), h.calls)
    case GetStatus(id) =>
      Transition(p, Some(Status(p.sessions, id)), [])
    case SendMessage(id, number, text, sent) =>
      var h := Send(p.sessions, id, number, text, sent);
      Transition(Process(h.sessions, p.nextClient), Some(h.response), h.calls)
    case LogoutSession(id, loggedOut, destroyed) =>
      var h := Logout(p.sessions, id, loggedOut, destroyed);
      Transition(Process(h.sessions, p.nextClient), Some(h.response), h.calls)
    case ClientEvent(id, event) =>
      Transition(Process(OnEvent(p.sessions, id, event, enc), p.nextClient), None, [])
  }

  /** Removing entries, or changing entries without touching their clients
      while keeping stored QR values rendered URLs, keeps the process valid. */
  lemma NarrowingKeepsValid(p: Process, q: Process)
    requires Valid(p)
    requires q.nextClient == p.nextClient
    requires q.sessions.Keys <= p.sessions.Keys
    requires forall k :: k in q.sessions ==> q.sessions[k].client == p.sessions[k].client
    requires forall k :: k in q.sessions && q.sessions[k].qr.Some? ==> IsQrUrl(q.sessions[k].qr.value)
    ensures Valid(q)
  {
    forall a, b | a in q.sessions && b in q.sessions && a != b
      ensures q.sessions[a].client != q.sessions[b].client
    {
      assert q.sessions[a].client == p.sessions[a].client;
      assert q.sessions[b].client == p.sessions[b].client;
    }
  }

  /** A fresh insert with the counter's client, followed by advancing the
      counter, keeps the process valid. */
  lemma InsertKeepsValid(p: Process, id: string)
    requires Valid(p) && id !in p.sessions
    ensures Valid(Process(p.sessions[id := Session(p.nextClient, false, None)], p.nextClient + 1))
  {
  }

  /** Every step keeps the process valid. */
  lemma StepKeepsValid(p: Process, input: Input, enc: string -> string)
    requires Enabled(p, input)
    ensures Valid(p) ==> Valid(Step(p, input, enc).process)
  {
    if Valid(p) {
      var q := Step(p, input, enc).process;
      match input
      case CreateSession(id) =>
        if Truthy(id) && id.value !in p.sessions {
          InsertKeepsValid(p, id.value);
        }
      case GetStatus(_) =>
      case SendMessage(_, _, _, _) =>
      case LogoutSession(_, _, _) =>
        NarrowingKeepsValid(p, q);
      case ClientEvent(_, _) =>
        NarrowingKeepsValid(p, q);
    }
  }

  /** Handles one input with the lookups as written, where ids naming
      `Object.prototype` members look present (module `Inherited`). */
  function StepAsWritten(p: Process, input: Input, enc: string -> string): (t: Transition)
    requires Enabled(p, input)
    ensures t.response.None? <==> input.ClientEvent?
    ensures t.process.nextClient == p.nextClient || t.process.nextClient == p.nextClient + 1
    ensures forall c :: c in t.calls ==> c.client in ClientsOf(p.sessions) || c == Initialize(p.nextClient)
    ensures t.process.nextClient == p.nextClient + 1 <==> Initialize(p.nextClient) in t.calls
  {
    match input
    case CreateSession(id) =>
      var h := Inherited.CreateAsWritten(p.sessions, id, p.nextClient);
      var next := if h.calls == [] then p.nextClient else p.nextClient + 1;
      Transition(Process(h.sessions, next), Some(h.response), h.calls)
    case GetStatus(id) =>
      Transition(p, Some(Inherited.StatusAsWritten(p.sessions, id)), [])
    case LogoutSession(id, loggedOut, destroyed) =>
      var h := Inherited.LogoutAsWritten(p.sessions, id, loggedOut, destroyed);
      Transition(Process(h.sessions, p.nextClient), Some(h.response), h.calls)
    case _ => Step(p, input, enc)
  }

  /** The program as written keeps the same invariant. */
  lemma StepAsWrittenKeepsValid(p: Process, input: Input, enc: string -> string)
    requires Enabled(p, input)
    ensures Valid(p) ==> Valid(StepAsWritten(p, input, enc).process)
  {
    // Each as-written handler either leaves the process as it was or does
    // what the corrected step does.
    StepKeepsValid(p, input, enc);
  }

  /** In a valid process, `qr || null` never changes a stored QR: every stored
      value is a rendered URL and so never empty. Status reports exactly what
      the events stored. */
  lemma StatusReportsStoredQr(p: Process, id: string)
    requires Valid(p) && id in p.sessions
    ensures Status(p.sessions, id).body.qr == p.sessions[id].qr
  {
  }

  /** Every input of the sequence is enabled when its turn comes. */
  predicate Runs(p: Process, inputs: seq<Input>, enc: string -> string)
    decreases |inputs|
  {
    inputs == [] || (Enabled(p, inputs[0]) && Runs(Step(p, inputs[0], enc).process, inputs[1..], enc))
  }

  /** The process after a sequence of inputs, handled one at a time. */
  function Run(p: Process, inputs: seq<Input>, enc: string -> string): (r: Process)
    requires Runs(p, inputs, enc)
    ensures Valid(p) ==> Valid(r)
    ensures r.nextClient >= p.nextClient
    decreases |inputs|
  {
    if inputs == [] then p
    else
      StepKeepsValid(p, inputs[0], enc);
      Run(Step(p, inputs[0], enc).process, inputs[1..], enc)
  }

  /** Every input of the sequence is enabled for the as-written step. */
  predicate RunsAsWritten(p: Process, inputs: seq<Input>, enc: string -> string)
    decreases |inputs|
  {
    inputs == [] || (Enabled(p, inputs[0]) && RunsAsWritten(StepAsWritten(p, inputs[0], enc).process, inputs[1..], enc))
  }

  /** The process after a sequence of inputs, handled one at a time by the
      program as written. */
  function RunAsWritten(p: Process, inputs: seq<Input>, enc: string -> string): (r: Process)
    requires RunsAsWritten(p, inputs, enc)
    ensures Valid(p) ==> Valid(r)
    ensures r.nextClient >= p.nextClient
    decreases |inputs|
  {
    if inputs == [] then p
    else
      StepAsWrittenKeepsValid(p, inputs[0], enc);
      RunAsWritten(StepAsWritten(p, inputs[0], enc).process, inputs[1..], enc)
  }

  /** The process at start-up is valid. */
  lemma InitialValid()
    ensures Valid(Process(map[], 0))
  {
  }

  /** Requests naming an unknown id never change the registry or call a
      client: status and logout answer 404, send answers 400. */
  lemma UnknownId(p: Process, id: string, number: Option<string>, text: Option<string>,
                  sent: Outcome, loggedOut: Outcome, destroyed: Outcome, enc: string -> string)
    requires id !in p.sessions
    ensures var t := Step(p, GetStatus(id), enc);
            t.process == p && t.response == Some(Response(NotFound, Error(SessionNotFound)))
    ensures var t := Step(p, SendMessage(Some(id), number, text, sent), enc);
            t.process == p && t.calls == [] && t.response == Some(Response(BadRequest, Error(NotReadyOrNotFound)))
    ensures var t := Step(p, LogoutSession(Some(id), loggedOut, destroyed), enc);
            t.process == p && t.calls == [] && t.response == Some(Response(NotFound, Error(SessionNotFound)))
  {
  }
}

=== FILE: wrappers.dfy ===
/** The optional values shared by the model: JavaScript's `null` and `undefined`
    both become `None`. */
module Wrappers {

  datatype Option<+T> = None | Some(value: T)
}
